=== FILE: README.md ===
# Bronze extraction of the SoundFlow ETL, modelled in Dafny

This project models the bronze layer of the SoundFlow ETL
(`etl/bronze/extract.py`). That layer copies four newline-delimited JSON
event files into four raw PostgreSQL tables. It consists of:

- a connection helper that retries with exponential backoff (`get_pg_conn`);
- a batch writer (`flush_batch`);
- four per-table extractors (`extract_auth_events`, `extract_listen_events`,
  `extract_status_change_events`, `extract_page_view_events`). They differ
  only in the JSON keys they read and the INSERT statement they feed, so the
  model defines the algorithm once and parameterises it by the key list;
- `truncate_bronze` and `main`. These empty the tables and then run the four
  extractions in a fixed order.

Modules, in dependency order:

| file | module | models |
|---|---|---|
| `text.dfy` | `Text` | `str.strip()` and the blank-line test |
| `json.dfy` | `Json` | decoded JSON values, `json.loads` outcomes, `dict.get` |
| `schema.dfy` | `Schema` | the four tables, their key lists and INSERT column lists, the row tuple |
| `batch_writer.dfy` | `BatchWriter` | `flush_batch` |
| `retry.dfy` | `Retry` | `get_pg_conn` |
| `extractor.dfy` | `Extractor` | `BATCH_LIMIT` and the per-line loop of the extractors |
| `pipeline.dfy` | `Pipeline` | `truncate_bronze`, `main` |

Everything the program only calls into is a parameter:

- `parse`: `json.loads` on one line;
- `dumps`: `json.dumps`;
- `accepts`: whether the database accepts a row into a table, e.g. the timestamp
  converts and the payload is valid `jsonb`;
- `connect`: the outcome of the k-th connection attempt;
- `files`: the input file contents, as a sequence of lines.

The database is modelled by the committed contents of each table. The loop
is a fold (`Extractor.Run`) of an explicit state over the numbered lines. The
state holds the committed table, the buffer, `insert_cnt` and a running or
halted status. `Extractor.Records` is the independent reference: the rows of
the lines that decode to a JSON object, in file order. The central theorem,
`Extractor.ExtractLoadsRecords`, links the two. It holds for every batch
capacity, so batching never changes what is loaded.

The model follows the code where a prose description of the extractor
would lead one to expect something else:

- **A non-object line aborts the load.** A line that is valid JSON but not
  an object (`[1]`, `42`, `"x"`, `null`) is not skipped. `event.get` raises
  `AttributeError`, and the generic `except Exception` handler then rolls
  back and raises `RuntimeError` with the line number. This is
  `LineKind.NotAnObject`.
- **A failed final flush is handled differently.** The end-of-stream flush
  (`etl/bronze/extract.py:101`) sits outside the `try`. If it fails, there is
  no rollback in the extractor and no line number. The error propagates and
  `main` closes the connection. The model reports this as
  `Outcome.FinalFlushFailed`, and the table keeps only the batches committed
  earlier.

## Model

| member | source | states |
|---|---|---|
| Text.Strip | etl/bronze/extract.py:66 | `line.strip()`: a non-empty result starts and ends with a non-space; the contracts of `TrimStart` and `TrimEnd` say that exactly the longest whitespace prefix and suffix are dropped; `Text.StripEmptyIffBlank` gives the blank test |
| Text.StripEmptyIffBlank | etl/bronze/extract.py:66-67 | `line.strip()` is empty exactly when every character of the line is Python whitespace, the empty line included |
| Json.Get | etl/bronze/extract.py:74-80 | `event.get(k)` is the stored value when the key is present; it is null exactly when the key is absent or holds null |
| Schema.Keys | etl/bronze/extract.py:74-80 | the keys each extractor looks up, in tuple order (auth here; page view at lines 126-137, status change at 183-189, listen at 234-242); `Schema.TupleMatchesInsert` and `Schema.KeysDistinct` state their properties |
| Schema.KeysDistinct | etl/bronze/extract.py:74-80 | no table looks up the same key twice (likewise lines 126-137, 183-189, 234-242) |
| Schema.Project | etl/bronze/extract.py:72-83 | the buffered tuple has one column per looked-up key, in order, column i holding `event.get(keys[i])`; a column is null exactly when its key is missing or null; the payload is `json.dumps(event)` |
| Schema.ProjectSeesOnlyKeys | etl/bronze/extract.py:72-83 | two events give the same columns if and only if `get` agrees on every key of the table |
| Schema.ExtraKeyIgnored | etl/bronze/extract.py:72-83 | a key the table does not read changes no column |
| Schema.TupleMatchesInsert | etl/bronze/extract.py:55-83 | for each of the four tables, the i-th key fills the i-th INSERT column, with `ts`/`userId`/`sessionId` renamed to `event_ts`/`user_id`/`session_id` and `payload` last; the tuple size equals the placeholder count; every table starts with the timestamp and the two identifiers and ends with city and state (the other three tables at lines 107-138, 164-190 and 215-243) |
| BatchWriter.FlushBatch | etl/bronze/extract.py:40-51 | an empty batch commits nothing; otherwise the flush succeeds exactly when every row is accepted, and then appends the whole batch in one commit |
| BatchWriter.FlushSplit | etl/bronze/extract.py:40-51 | after one successful flush, flushing a second batch succeeds exactly when flushing both batches at once would, and leaves the same table |
| Retry.Attempts | etl/bronze/extract.py:17-37 | after `failed` failures, the loop connects at the first later attempt that succeeds, at most attempt 5, sleeping `2 * 2^(a-1)` seconds after each failed attempt `a`; otherwise it gives up at attempt 5 with every remaining attempt failed |
| Retry.Acquire | etl/bronze/extract.py:17-37 | connects if and only if one of attempts 1 to 5 succeeds, and then at the first one, after sleeps of 2, 4, 8 and 16 seconds cut at that attempt; otherwise it reports 5 attempts after exactly the sleeps 2, 4, 8 and 16 |
| Retry.AttemptsConsultOnlyFirstFive | etl/bronze/extract.py:29-34 | two connection environments that agree on the remaining attempts up to 5 give the same sleeps and result |
| Retry.AcquireNeverTriesSixth | etl/bronze/extract.py:30-34 | the result never depends on a sixth attempt |
| Retry.UnreachableWarehouse | etl/bronze/extract.py:17-37 | with every attempt failing: sleeps 2, 4, 8, 16, then failure after 5 attempts |
| Extractor.WholeBatchesOfThousand | etl/bronze/extract.py:7 | with `BATCH_LIMIT` = 1000, a whole number of batches is exactly a multiple of 1000 |
| Extractor.RunningCountWholeThousands | etl/bronze/extract.py:85-89 | with `BATCH_LIMIT` = 1000, while the loop runs `insert_cnt` is a multiple of 1000, equals the number of rows committed so far, and the buffer holds fewer than 1000 rows |
| Extractor.Classify | etl/bronze/extract.py:65-98 | a line is skipped as blank exactly when it is all whitespace; skipped as malformed exactly when it is non-blank and `json.loads` raises `JSONDecodeError`; a record exactly when it is non-blank and decodes to an object, whose fields it carries; fatal exactly when it is non-blank and decodes to a value other than an object |
| Extractor.Step | etl/bronze/extract.py:65-98 | one iteration of the loop body; `Extractor.StepFlushesFullBatches`, `Extractor.StepHalts` and `Extractor.SkippedLineChangesNothing` state what it does |
| Extractor.Run | etl/bronze/extract.py:64-98 | the `for` loop over the numbered lines; `Extractor.RunInvariant`, `Extractor.HaltedIsFinal` and `Extractor.HaltedKeepsCompletedFlushes` state its invariant and its abort behaviour |
| Extractor.Extract | etl/bronze/extract.py:54-103 | one `extract_*_events` call, the loop followed by the final flush; `Extractor.ExtractLoadsRecords`, `Extractor.AbortedReport` and `Extractor.FinalFlushFailedReport` state its three outcomes |
| Extractor.StepFlushesFullBatches | etl/bronze/extract.py:85-89 | the buffer stays below `BATCH_LIMIT`; a step that writes flushes exactly `BATCH_LIMIT` rows (the old buffer plus this line's row), adds `BATCH_LIMIT` to `insert_cnt` and clears the buffer; no step removes committed rows |
| Extractor.StepHalts | etl/bronze/extract.py:94-98 | a step that aborts reports its own line number and commits nothing; the line is valid JSON that is not an object, or its row filled the buffer and the database rejected the batch |
| Extractor.SkippedLineChangesNothing | etl/bronze/extract.py:66-67 | a blank line, or one that raises `JSONDecodeError` (lines 91-92), leaves the loop state unchanged |
| Extractor.RunInvariant | etl/bronze/extract.py:61-98 | while the loop runs, the table is the initial table plus the first `insert_cnt` reference rows, all accepted; the buffer holds the rest, fewer than `BATCH_LIMIT`; `insert_cnt` is a whole number of batches; no line so far was fatal |
| Extractor.HaltedIsFinal | etl/bronze/extract.py:94-98 | once the loop has aborted, further lines change nothing |
| Extractor.HaltedKeepsCompletedFlushes | etl/bronze/extract.py:85-98 | an abort at line `ln` leaves the table as it was before line `ln`, when the loop was still running; the run up to line `ln` already gives the final state; the cause is a non-object line or a rejected full batch |
| Extractor.AbortedReport | etl/bronze/extract.py:94-98 | an aborted extraction names a line of the file, and its table is the initial table plus a whole number of batches of the rows of the earlier lines, missing fewer than one batch of them: only the uncommitted buffer is rolled back |
| Extractor.AbortIgnoresLaterLines | etl/bronze/extract.py:94-98 | lines after the one an abort reports never affect the result |
| Extractor.ExtractLoadsRecords | etl/bronze/extract.py:61-103 | an extraction loads everything if and only if no line is a non-object and the database accepts every reference row; then the table is the initial table followed by the reference rows in file order, and the final `insert_cnt` is their number; this holds for every batch capacity |
| Extractor.FinalFlushFailedReport | etl/bronze/extract.py:100-102 | the final flush fails only when every line was blank, malformed or an object and some reference row is rejected; the table then holds the initial table plus all completed full batches, fewer than one batch short of all reference rows |
| Extractor.FinalFlushCompletes | etl/bronze/extract.py:100-102 | from a running loop state, the end-of-stream flush succeeds exactly when every reference row is accepted, and then the table holds all of them |
| Extractor.CleanRunsToEnd | etl/bronze/extract.py:64-98 | on clean input the loop never aborts |
| Extractor.RecordsAppend | etl/bronze/extract.py:64-83 | the reference rows of two consecutive stretches of lines are the concatenation of their reference rows |
| Extractor.SkippedLineAnywhere | etl/bronze/extract.py:65-92 | inserting a blank or malformed line anywhere changes neither the reference rows nor whether the load completes; a completed load gives the same table and count |
| Pipeline.TruncateBronze | etl/bronze/extract.py:268-279 | all four raw tables are empty afterwards |
| Pipeline.LoadTables | etl/bronze/extract.py:286-289 | the extractions run in sequence until one does not load; a stop names a table of the sequence and an outcome other than a full load; `Pipeline.LoadTablesAll` and `Pipeline.LoadTablesStops` state the rest |
| Pipeline.LoadTablesAll | etl/bronze/extract.py:284-289 | a sequence of distinct tables loads completely if and only if each table's extraction loads; each table then holds what its extraction committed; tables outside the sequence are untouched |
| Pipeline.LoadTablesStops | etl/bronze/extract.py:284-289 | a stopped load stops at the first table whose extraction fails: tables before it are loaded, it holds what its extraction committed, and later tables keep their contents |
| Pipeline.LoadOrderCoversAll | etl/bronze/extract.py:286-289 | `main` extracts each of the four tables exactly once |
| Pipeline.ExtractFromEmpty | etl/bronze/extract.py:285-289 | on a freshly truncated table, an extraction loads exactly when its input is clean, and then the table holds exactly the expected rows |
| Pipeline.RunMain | etl/bronze/extract.py:282-291 | `main`: the sleeps are those of `get_pg_conn` whether or not it connects; the run fails to connect exactly when attempts 1 to 5 all fail, and then leaves the tables as they were after 5 attempts; a failed extraction reports an outcome other than a full load; the lemmas below state the rest |
| Pipeline.MainLoadsEverything | etl/bronze/extract.py:282-291 | once connected, a run completes if and only if all four inputs are clean, and then every raw table holds exactly its expected rows |
| Pipeline.MainStopsAtFirstFailure | etl/bronze/extract.py:282-291 | when an extraction fails, the run reports that extraction's own outcome (its abort line, or the failed final flush); the tables before it in auth, listen, status-change, page-view order are fully loaded, it holds what it committed, and the later ones are left empty by the truncation |
| Pipeline.MainWithoutConnection | etl/bronze/extract.py:282-283 | an unreachable warehouse leaves every table as it was, after sleeps of 2, 4, 8 and 16 seconds and failure after 5 attempts |
| Pipeline.MainIsIdempotent | etl/bronze/extract.py:282-291 | a connected run does not depend on the previous table contents, so running twice gives the same result as running once, as far as the columns the program supplies go |

## Left out

- The SQL and the driver are not modelled. This covers psycopg2 cursors, `execute_batch` paging, `to_timestamp(%s / 1000.0)` and the `::jsonb` cast. Whether the database accepts a row is the `accepts` oracle.
- The JSON grammar is not modelled: `json.loads` is the `parse` oracle and `json.dumps` is the `dumps` oracle. Errors from `json.loads` other than `JSONDecodeError` (for example `RecursionError`) are not modelled.
- File I/O is not modelled. Each input file is given as its sequence of lines. Errors while opening or decoding a file are not modelled.
- The `print` progress messages and the `RuntimeError` message texts are not modelled. An abort carries only its line number, and a completed load carries the final `insert_cnt`.
- `os.getenv` and the connection parameters (host, port, database, user, password, `connect_timeout`) are not modelled. Only whether each attempt succeeds is modelled, as the `connect` oracle.
- The sleeps in `get_pg_conn` are recorded instead of performed.
- Retry.Acquire: only `psycopg2.OperationalError` is modelled as a failed attempt. Any other exception from `psycopg2.connect` propagates at once in the source.
- Pipeline.RunMain: `conn.close()` in the `finally` is not modelled beyond discarding uncommitted work. `main` then re-raises the error, which the model reports as an outcome.
- Rows are modelled as the values the program sends: the looked-up keys and the payload, up to the payload's key order (see the next line). Columns the database fills in itself are not modelled. These include `ingestion_ts`, which records when a row was inserted, and any identity column. So the rows of two runs agree only on the columns the program supplies.
- Json.Event is an unordered `map`, so the modelled payload does not depend on the order of the keys in the line, while the payload string `json.dumps` writes keeps that order; nested objects lose it too. The `::jsonb` cast does not keep key order in the stored value either.
- Pipeline.TruncateBronze: `RESTART IDENTITY` is not modelled, because identity columns are filled in by the database (see the line on columns the database fills in). A failure of the `TRUNCATE` itself is not modelled.
- The database judges each row on its own: `accepts` sees one row, not the rows already in the table or the other rows of the same batch. Constraint violations between rows (unique or foreign keys) are therefore not modelled. This is why a complete load reduces to a condition on each row.
- Extractor.Extract: the printed running count after each flush (lines 88 and 103) is not modelled.
- The silver and gold transformations and the other copies of the connection helper in the repository are not part of this model.

=== FILE: batch_writer.dfy ===
/** `flush_batch` (etl/bronze/extract.py:40-51): one bulk insert of the whole
    buffered batch followed by one commit. The warehouse table is the
    sequence of rows committed so far; whether the database accepts a row
    (its timestamp converts, its payload is valid jsonb, ...) is an oracle. */
module BatchWriter {

  /** The result of one flush. `Flushed` carries the committed table and
      whether a commit was issued at all; `WriteFailed` is the exception
      `execute_batch` raises, after which nothing of the batch is committed. */
  datatype FlushResult<R> = Flushed(table: seq<R>, committed: bool) | WriteFailed

  /** True when the database accepts every row of `batch`. */
  ghost predicate AllAccepted<R>(accepts: R -> bool, batch: seq<R>) {
    forall i :: 0 <= i < |batch| ==> accepts(batch[i])
  }

  /** `execute_batch` runs with `page_size=len(batch)`, so the whole batch is
      one statement: it succeeds only if every row is accepted, and then
      all rows become visible together at the commit. */
  function FlushBatch<R>(table: seq<R>, batch: seq<R>, accepts: R -> bool): (r: FlushResult<R>)
    ensures |batch| == 0 ==> r == Flushed(table, false)
    ensures r.Flushed? <==> AllAccepted(accepts, batch)
    ensures r.Flushed? ==> r.table == table + batch && (r.committed <==> |batch| > 0)
  {
    if |batch| == 0 then Flushed(table, false)
    else if forall i :: 0 <= i < |batch| ==> accepts(batch[i]) then Flushed(table + batch, true)
    else WriteFailed
  }

  lemma AllAcceptedAppend<R>(accepts: R -> bool, b1: seq<R>, b2: seq<R>)
    ensures AllAccepted(accepts, b1 + b2) <==> AllAccepted(accepts, b1) && AllAccepted(accepts, b2)
  {
    var b := b1 + b2;
    if AllAccepted(accepts, b) {
      forall i | 0 <= i < |b1|
        ensures accepts(b1[i])
      {
        assert b1[i] == b[i];
      }
      forall i | 0 <= i < |b2|
        ensures accepts(b2[i])
      {
        assert b2[i] == b[|b1| + i];
      }
    }
  }

  /** Flushing in two pieces commits the same rows as flushing the pieces
      together, when both succeed: batching is invisible in the final table. */
  lemma FlushSplit<R>(table: seq<R>, b1: seq<R>, b2: seq<R>, accepts: R -> bool)
    requires FlushBatch(table, b1, accepts).Flushed?
    ensures var t1 := FlushBatch(table, b1, accepts).table;
      FlushBatch(t1, b2, accepts).Flushed? <==> FlushBatch(table, b1 + b2, accepts).Flushed?
    ensures var t1 := FlushBatch(table, b1, accepts).table;
      FlushBatch(t1, b2, accepts).Flushed? ==>
        FlushBatch(t1, b2, accepts).table == FlushBatch(table, b1 + b2, accepts).table
  {
    AllAcceptedAppend(accepts, b1, b2);
  }
}

=== FILE: extractor.dfy ===
/** The line-stream extractor shared by `extract_auth_events`,
    `extract_listen_events`, `extract_status_change_events` and
    `extract_page_view_events` (etl/bronze/extract.py:54-265): one algorithm
    parameterised by the ordered key list of the target table.

    The Python loop is a fold of an explicit state (committed table, buffer,
    running count, status) over the numbered lines; `Run` is that fold and
    `Extract` adds the end-of-stream flush. `Records` is the independent
    reference: the rows of the lines that decode to a JSON object. */
module Extractor {
  import opened Json
  import opened Text
  import opened Schema
  import opened BatchWriter

  /** A batch capacity; the program uses `BATCH_LIMIT`. */
  type Capacity = n: nat | n > 0 witness 1

  /** `BATCH_LIMIT` (etl/bronze/extract.py:7). */
  const BATCH_LIMIT: Capacity := 1000

  /** `n` rows make up a whole number of batches of `limit` rows. */
  predicate WholeBatches(n: nat, limit: Capacity)
    decreases n
  {
    n == 0 || (n >= limit && WholeBatches(n - limit, limit))
  }

  /** With the program's capacity, whole batches are the multiples of 1000. */
  lemma {:induction false} WholeBatchesOfThousand(n: nat)
    ensures WholeBatches(n, BATCH_LIMIT) <==> n % BATCH_LIMIT == 0
    decreases n
  {
    if n >= BATCH_LIMIT {
      WholeBatchesOfThousand(n - BATCH_LIMIT);
    }
  }

  /** The collaborators the loop calls but this model does not define:
      `json.loads`, `json.dumps`, and whether the database accepts a row. */
  datatype Oracles = Oracles(parse: string -> ParseResult, dumps: Event -> string, accepts: Row -> bool)

  /** How the loop body treats one line. */
  datatype LineKind =
    | Blank                  // `not line.strip()`: skipped before parsing
    | Malformed              // `JSONDecodeError`: reported and skipped
    | NotAnObject            // valid JSON without `.get`: the generic handler aborts
    | Record(event: Event)   // a JSON object: projected and buffered

  function Classify(parse: string -> ParseResult, line: string): (k: LineKind)
    ensures k.Blank? <==> IsBlank(line)
    ensures k.Record? ==> parse(line) == Decoded(Object(k.event))
    ensures k.Malformed? <==> !IsBlank(line) && parse(line).DecodeError?
    ensures k.Record? <==> !IsBlank(line) && parse(line).Decoded? && parse(line).value.Object?
    ensures k.NotAnObject? <==> !IsBlank(line) && parse(line).Decoded? && !parse(line).value.Object?
  {
    StripEmptyIffBlank(line);
    if |Strip(line)| == 0 then Blank
    else match parse(line)
      case DecodeError => Malformed
      case Decoded(v) => if v.Object? then Record(v.fields) else NotAnObject
  }

  /** `Running`, or stopped by the generic exception handler at a line
      number (counted from 1). */
  datatype Status = Running | Halted(line: nat)

  /** The loop state: rows committed to the table so far, the buffered
      batch, `insert_cnt`, and whether the loop has been aborted. */
  datatype State = State(table: seq<Row>, batch: seq<Row>, count: nat, status: Status)

  /** One iteration of the `for ln, line in enumerate(f, start=1)` body.
      The buffer is flushed as soon as it holds `limit` rows; a failed
      flush or a non-object line rolls back, discarding the buffer. */
  function Step(keys: seq<string>, o: Oracles, limit: Capacity, s: State, ln: nat, line: string): State
  {
    if !s.status.Running? then s
    else match Classify(o.parse, line)
      case Blank => s
      case Malformed => s
      case NotAnObject => State(s.table, [], s.count, Halted(ln))
      case Record(event) =>
        var batch := s.batch + [Project(keys, event, o.dumps)];
        if |batch| < limit then s.(batch := batch)
        else match FlushBatch(s.table, batch, o.accepts)
          case Flushed(table, _) => State(table, [], s.count + limit, Running)
          case WriteFailed => State(s.table, [], s.count, Halted(ln))
  }

  /** The state after the loop has consumed `lines`, starting from a table
      holding `table0`. */
  function Run(keys: seq<string>, o: Oracles, limit: Capacity, table0: seq<Row>, lines: seq<string>): State
    decreases |lines|
  {
    if |lines| == 0 then State(table0, [], 0, Running)
    else Step(keys, o, limit, Run(keys, o, limit, table0, lines[..|lines| - 1]), |lines|, lines[|lines| - 1])
  }

  /** How an extraction ends: every row loaded (with the final `insert_cnt`),
      aborted with `RuntimeError` at a line, or failed in the end-of-stream
      flush, which sits outside the `try` and so is neither rolled back nor
      reported with a line number. */
  datatype Outcome = Loaded(inserted: nat) | Aborted(line: nat) | FinalFlushFailed

  /** The committed table after the extraction, and how it ended. */
  datatype Report = Report(table: seq<Row>, outcome: Outcome)

  /** One `extract_*_events` call. */
  function Extract(keys: seq<string>, o: Oracles, limit: Capacity, table0: seq<Row>, lines: seq<string>): Report
  {
    var s := Run(keys, o, limit, table0, lines);
    match s.status
    case Halted(ln) => Report(s.table, Aborted(ln))
    case Running =>
      match FlushBatch(s.table, s.batch, o.accepts)
      case Flushed(table, _) => Report(table, Loaded(s.count + |s.batch|))
      case WriteFailed => Report(s.table, FinalFlushFailed)
  }

  // ---------------------------------------------------------------------
  // Reference definition

  /** The row a line contributes, if any. */
  function RowOf(keys: seq<string>, o: Oracles, line: string): seq<Row> {
    match Classify(o.parse, line)
    case Record(event) => [Project(keys, event, o.dumps)]
    case _ => []
  }

  /** The rows of the lines that decode to a JSON object, in file order. */
  function Records(keys: seq<string>, o: Oracles, lines: seq<string>): seq<Row>
    decreases |lines|
  {
    if |lines| == 0 then []
    else Records(keys, o, lines[..|lines| - 1]) + RowOf(keys, o, lines[|lines| - 1])
  }

  /** No line that the generic handler would abort on: every line is blank,
      malformed or an object, and the database accepts every row. */
  ghost predicate Clean(keys: seq<string>, o: Oracles, lines: seq<string>) {
    NoneFatal(o, lines) && AllAccepted(o.accepts, Records(keys, o, lines))
  }

  /** No line is valid JSON other than an object. */
  ghost predicate NoneFatal(o: Oracles, lines: seq<string>) {
    forall i :: 0 <= i < |lines| ==> !Classify(o.parse, lines[i]).NotAnObject?
  }

  // ---------------------------------------------------------------------
  // Single steps

  /** The buffer stays below capacity, and a step that writes to the table
      flushes exactly `limit` rows (the old buffer plus this line's row),
      adds `limit` to the count and leaves the buffer empty. A step never
      removes committed rows. */
  lemma StepFlushesFullBatches(keys: seq<string>, o: Oracles, limit: Capacity, s: State, ln: nat, line: string)
    requires |s.batch| < limit
    ensures var s' := Step(keys, o, limit, s, ln, line);
      && |s'.batch| < limit
      && (s'.table != s.table ==>
            && s.status.Running? && s'.status.Running?
            && s'.table == s.table + s.batch + RowOf(keys, o, line)
            && |s'.table| == |s.table| + limit
            && s'.batch == []
            && s'.count == s.count + limit)
  {
    if s.status.Running? {
      match Classify(o.parse, line)
      case Blank =>
      case Malformed =>
      case NotAnObject =>
      case Record(event) =>
        RecordStepFlushes(keys, o, limit, s, ln, line, event);
    }
  }

  /** `StepFlushesFullBatches` for a line holding a JSON object. */
  lemma RecordStepFlushes(keys: seq<string>, o: Oracles, limit: Capacity, s: State, ln: nat, line: string, event: Event)
    requires |s.batch| < limit && s.status.Running?
    requires Classify(o.parse, line) == Record(event)
    ensures var s' := Step(keys, o, limit, s, ln, line);
      && |s'.batch| < limit
      && (s'.table != s.table ==>
            && s'.status.Running?
            && s'.table == s.table + s.batch + RowOf(keys, o, line)
            && |s'.table| == |s.table| + limit
            && s'.batch == []
            && s'.count == s.count + limit)
  {
    var batch := s.batch + [Project(keys, event, o.dumps)];
    assert RowOf(keys, o, line) == [Project(keys, event, o.dumps)];
    if |batch| >= limit {
      var f := FlushBatch(s.table, batch, o.accepts);
      if f.Flushed? {
        assert f.table == s.table + batch;
      }
    }
  }

  /** Why a running loop with buffer `batch` halts on `line`: the line is
      valid JSON that is not an object, or it is an object whose row fills
      the buffer and the database rejects the full batch. */
  ghost predicate HaltCause(keys: seq<string>, o: Oracles, limit: Capacity, batch: seq<Row>, line: string) {
    || Classify(o.parse, line).NotAnObject?
    || (&& Classify(o.parse, line).Record?
        && |batch| == limit - 1
        && !AllAccepted(o.accepts, batch + RowOf(keys, o, line)))
  }

  /** A step that halts reports its own line number and commits nothing:
      the line is valid JSON but not an object, or its row filled the
      buffer and the database rejected the batch. */
  lemma StepHalts(keys: seq<string>, o: Oracles, limit: Capacity, s: State, ln: nat, line: string)
    requires s.status.Running? && |s.batch| < limit
    requires Step(keys, o, limit, s, ln, line).status.Halted?
    ensures Step(keys, o, limit, s, ln, line).status.line == ln
    ensures Step(keys, o, limit, s, ln, line).table == s.table
    ensures HaltCause(keys, o, limit, s.batch, line)
  {
    match Classify(o.parse, line)
    case NotAnObject =>
    case Record(event) =>
      assert RowOf(keys, o, line) == [Project(keys, event, o.dumps)];
  }

  /** Blank and malformed lines change nothing and never abort. */
  lemma SkippedLineChangesNothing(keys: seq<string>, o: Oracles, limit: Capacity, s: State, ln: nat, line: string)
    requires IsBlank(line) || o.parse(line).DecodeError?
    ensures Step(keys, o, limit, s, ln, line) == s
  {
  }

  // ---------------------------------------------------------------------
  // The loop invariant

  /** What holds while the loop is running: the committed table is the
      initial table plus the first `count` reference rows, all accepted by
      the database; the buffer holds the rest, fewer than `limit`; `count`
      is a whole number of full batches; no line so far was fatal. */
  ghost predicate Invariant(keys: seq<string>, o: Oracles, limit: Capacity, table0: seq<Row>, lines: seq<string>, s: State) {
    Buffered(o.accepts, limit, table0, Records(keys, o, lines), s) && NoneFatal(o, lines)
  }

  /** The part of the invariant about the rows produced so far. */
  ghost predicate Buffered(accepts: Row -> bool, limit: Capacity, table0: seq<Row>, rows: seq<Row>, s: State) {
    && s.count + |s.batch| == |rows|
    && s.table == table0 + rows[..s.count]
    && s.batch == rows[s.count..]
    && |s.batch| < limit
    && WholeBatches(s.count, limit)
    && AllAccepted(accepts, rows[..s.count])
  }

  lemma RecordsSnoc(keys: seq<string>, o: Oracles, lines: seq<string>, line: string)
    ensures Records(keys, o, lines + [line]) == Records(keys, o, lines) + RowOf(keys, o, line)
  {
    assert (lines + [line])[..|lines|] == lines;
  }

  lemma NoneFatalAppend(o: Oracles, a: seq<string>, b: seq<string>)
    ensures NoneFatal(o, a + b) <==> NoneFatal(o, a) && NoneFatal(o, b)
  {
    var ab := a + b;
    if NoneFatal(o, a) && NoneFatal(o, b) {
      forall i | 0 <= i < |ab|
        ensures !Classify(o.parse, ab[i]).NotAnObject?
      {
        if i >= |a| {
          assert ab[i] == b[i - |a|];
        }
      }
    }
    if NoneFatal(o, ab) {
      forall i | 0 <= i < |a|
        ensures !Classify(o.parse, a[i]).NotAnObject?
      {
        assert a[i] == ab[i];
      }
      forall i | 0 <= i < |b|
        ensures !Classify(o.parse, b[i]).NotAnObject?
      {
        assert b[i] == ab[|a| + i];
      }
    }
  }

  /** One loop iteration keeps the invariant unless it halts. */
  lemma StepKeepsInvariant(keys: seq<string>, o: Oracles, limit: Capacity, table0: seq<Row>, lines: seq<string>, line: string, s: State)
    requires s.status.Running? && Invariant(keys, o, limit, table0, lines, s)
    ensures var s' := Step(keys, o, limit, s, |lines| + 1, line);
      s'.status.Running? ==> Invariant(keys, o, limit, table0, lines + [line], s')
  {
    RecordsSnoc(keys, o, lines, line);
    NoneFatalAppend(o, lines, [line]);
    var rows := Records(keys, o, lines);
    match Classify(o.parse, line)
    case Blank =>
      assert Records(keys, o, lines + [line]) == rows;
    case Malformed =>
      assert Records(keys, o, lines + [line]) == rows;
    case NotAnObject =>
    case Record(event) =>
      var row := Project(keys, event, o.dumps);
      assert NoneFatal(o, [line]);
      assert Records(keys, o, lines + [line]) == rows + [row];
      BufferKeepsInvariant(o.accepts, limit, table0, rows, row, s);
  }

  /** Appending a row to the buffer, and flushing it when full, keeps the
      row part of the invariant. */
  lemma BufferKeepsInvariant(accepts: Row -> bool, limit: Capacity, table0: seq<Row>, rows: seq<Row>, row: Row, s: State)
    requires Buffered(accepts, limit, table0, rows, s)
    ensures var batch := s.batch + [row];
      |batch| < limit ==> Buffered(accepts, limit, table0, rows + [row], s.(batch := batch))
    ensures var batch := s.batch + [row];
      |batch| >= limit && FlushBatch(s.table, batch, accepts).Flushed? ==>
        Buffered(accepts, limit, table0, rows + [row], State(FlushBatch(s.table, batch, accepts).table, [], s.count + limit, Running))
  {
    var batch := s.batch + [row];
    if |batch| < limit {
      BufferAppendKeeps(accepts, limit, table0, rows, row, s);
    } else if FlushBatch(s.table, batch, accepts).Flushed? {
      BufferFlushKeeps(accepts, limit, table0, rows, row, s);
    }
  }

  lemma BufferAppendKeeps(accepts: Row -> bool, limit: Capacity, table0: seq<Row>, rows: seq<Row>, row: Row, s: State)
    requires Buffered(accepts, limit, table0, rows, s)
    requires |s.batch| + 1 < limit
    ensures Buffered(accepts, limit, table0, rows + [row], s.(batch := s.batch + [row]))
  {
    var all := rows + [row];
    assert all[..s.count] == rows[..s.count];
    assert s.batch + [row] == all[s.count..];
  }

  lemma BufferFlushKeeps(accepts: Row -> bool, limit: Capacity, table0: seq<Row>, rows: seq<Row>, row: Row, s: State)
    requires Buffered(accepts, limit, table0, rows, s)
    requires |s.batch| + 1 >= limit && FlushBatch(s.table, s.batch + [row], accepts).Flushed?
    ensures Buffered(accepts, limit, table0, rows + [row],
      State(FlushBatch(s.table, s.batch + [row], accepts).table, [], s.count + limit, Running))
  {
    var all := rows + [row];
    var batch := s.batch + [row];
    assert all[..s.count] == rows[..s.count];
    assert batch == all[s.count..];
    FullBatchKeepsInvariant(accepts, limit, table0, all, s.count, batch);
  }

  /** The arithmetic of a full flush: after committing `all[count..]`,
      exactly `limit` rows, the committed prefix is all of `all`. */
  lemma FullBatchKeepsInvariant(accepts: Row -> bool, limit: Capacity, table0: seq<Row>, all: seq<Row>, count: nat, batch: seq<Row>)
    requires count <= |all| && batch == all[count..] && |batch| == limit
    requires AllAccepted(accepts, all[..count]) && AllAccepted(accepts, batch)
    ensures all[..count] + batch == all[..count + limit] == all
    ensures AllAccepted(accepts, all[..count + limit])
    ensures all[count + limit..] == []
  {
    assert all[..count] + batch == all;
    AllAcceptedAppend(accepts, all[..count], batch);
  }

  lemma {:induction false} RunInvariant(keys: seq<string>, o: Oracles, limit: Capacity, table0: seq<Row>, lines: seq<string>)
    ensures var s := Run(keys, o, limit, table0, lines);
      s.status.Running? ==> Invariant(keys, o, limit, table0, lines, s)
    decreases |lines|
  {
    if |lines| > 0 {
      var n := |lines| - 1;
      var prefix := lines[..n];
      var p := Run(keys, o, limit, table0, prefix);
      RunInvariant(keys, o, limit, table0, prefix);
      assert prefix + [lines[n]] == lines;
      assert Run(keys, o, limit, table0, lines) == Step(keys, o, limit, p, |prefix| + 1, lines[n]);
      if p.status.Running? {
        StepKeepsInvariant(keys, o, limit, table0, prefix, lines[n], p);
      }
    }
  }

  /** With the program's `BATCH_LIMIT`, the running `insert_cnt` is always a
      multiple of 1000 and counts exactly the rows committed so far. */
  lemma RunningCountWholeThousands(keys: seq<string>, o: Oracles, table0: seq<Row>, lines: seq<string>)
    ensures var s := Run(keys, o, BATCH_LIMIT, table0, lines);
      s.status.Running? ==> s.count % 1000 == 0 && |s.table| == |table0| + s.count && |s.batch| < 1000
  {
    var s := Run(keys, o, BATCH_LIMIT, table0, lines);
    RunInvariant(keys, o, BATCH_LIMIT, table0, lines);
    if s.status.Running? {
      WholeBatchesOfThousand(s.count);
    }
  }

  // ---------------------------------------------------------------------
  // Abort semantics

  /** Once halted, the loop ignores every further line. */
  lemma {:induction false} HaltedIsFinal(keys: seq<string>, o: Oracles, limit: Capacity, table0: seq<Row>, lines: seq<string>, more: seq<string>)
    requires Run(keys, o, limit, table0, lines).status.Halted?
    ensures Run(keys, o, limit, table0, lines + more) == Run(keys, o, limit, table0, lines)
    decreases |more|
  {
    if |more| == 0 {
      assert lines + more == lines;
    } else {
      var all, shorter := lines + more, more[..|more| - 1];
      DropLastOfAppend(lines, more);
      HaltedIsFinal(keys, o, limit, table0, lines, shorter);
      var s := Run(keys, o, limit, table0, lines + shorter);
      assert Run(keys, o, limit, table0, all) == Step(keys, o, limit, s, |all|, all[|all| - 1]);
    }
  }

  /** A halt at line `ln` leaves the table exactly as the loop found it
      before line `ln`: running, and holding the initial table plus a whole
      number of full batches of the earlier lines' rows. Nothing of the
      in-flight batch, of line `ln` or of any later line is committed. The
      halting line is either valid JSON that is not an object, or the object
      whose row filled the buffer when the database rejected the batch. */
  lemma {:induction false} HaltedKeepsCompletedFlushes(keys: seq<string>, o: Oracles, limit: Capacity, table0: seq<Row>, lines: seq<string>)
    requires Run(keys, o, limit, table0, lines).status.Halted?
    ensures 1 <= Run(keys, o, limit, table0, lines).status.line <= |lines|
    ensures var s := Run(keys, o, limit, table0, lines);
      var ln := s.status.line;
      var before := Run(keys, o, limit, table0, lines[..ln - 1]);
      && before.status.Running?
      && s.table == before.table
      && Run(keys, o, limit, table0, lines[..ln]) == s
      && HaltCause(keys, o, limit, before.batch, lines[ln - 1])
  {
    HaltLocated(keys, o, limit, table0, lines);
  }

  /** The facts of `HaltedKeepsCompletedFlushes` about a halt at line `ln`. */
  ghost predicate HaltedAt(keys: seq<string>, o: Oracles, limit: Capacity, table0: seq<Row>, lines: seq<string>, ln: nat) {
    && 1 <= ln <= |lines|
    && var s := Run(keys, o, limit, table0, lines);
      var before := Run(keys, o, limit, table0, lines[..ln - 1]);
      && s.status == Halted(ln)
      && before.status.Running?
      && s.table == before.table
      && Run(keys, o, limit, table0, lines[..ln]) == s
      && HaltCause(keys, o, limit, before.batch, lines[ln - 1])
  }

  lemma {:induction false} HaltLocated(keys: seq<string>, o: Oracles, limit: Capacity, table0: seq<Row>, lines: seq<string>)
    requires Run(keys, o, limit, table0, lines).status.Halted?
    ensures HaltedAt(keys, o, limit, table0, lines, Run(keys, o, limit, table0, lines).status.line)
    decreases |lines|
  {
    var n := |lines| - 1;
    var prefix := lines[..n];
    assert prefix + [lines[n]] == lines;
    var p := Run(keys, o, limit, table0, prefix);
    assert Run(keys, o, limit, table0, lines) == Step(keys, o, limit, p, |lines|, lines[n]);
    if p.status.Halted? {
      HaltLocated(keys, o, limit, table0, prefix);
      HaltInherited(keys, o, limit, table0, prefix, lines[n], p.status.line);
    } else {
      HaltHere(keys, o, limit, table0, prefix, lines[n]);
    }
  }

  /** A halt in `prefix` is still the halt after one more line. */
  lemma HaltInherited(keys: seq<string>, o: Oracles, limit: Capacity, table0: seq<Row>, prefix: seq<string>, line: string, ln: nat)
    requires HaltedAt(keys, o, limit, table0, prefix, ln)
    ensures HaltedAt(keys, o, limit, table0, prefix + [line], ln)
  {
    var lines := prefix + [line];
    HaltedIsFinal(keys, o, limit, table0, prefix, [line]);
    assert lines[..ln - 1] == prefix[..ln - 1];
    assert lines[..ln] == prefix[..ln];
    assert lines[ln - 1] == prefix[ln - 1];
  }

  /** A running loop that halts on the next line halts at that line. */
  lemma HaltHere(keys: seq<string>, o: Oracles, limit: Capacity, table0: seq<Row>, prefix: seq<string>, line: string)
    requires Run(keys, o, limit, table0, prefix).status.Running?
    requires Run(keys, o, limit, table0, prefix + [line]).status.Halted?
    ensures HaltedAt(keys, o, limit, table0, prefix + [line], |prefix| + 1)
  {
    var lines := prefix + [line];
    var p := Run(keys, o, limit, table0, prefix);
    assert lines[..|prefix|] == prefix;
    assert lines[..|prefix| + 1] == lines;
    assert Run(keys, o, limit, table0, lines) == Step(keys, o, limit, p, |lines|, line);
    RunInvariant(keys, o, limit, table0, prefix);
    StepHalts(keys, o, limit, p, |lines|, line);
  }

  /** The report of an aborted extraction: the committed rows are the
      initial table plus a prefix of the rows of the lines before the
      reported line, a whole number of batches long. */
  lemma AbortedReport(keys: seq<string>, o: Oracles, limit: Capacity, table0: seq<Row>, lines: seq<string>)
    requires Extract(keys, o, limit, table0, lines).outcome.Aborted?
    ensures 1 <= Extract(keys, o, limit, table0, lines).outcome.line <= |lines|
    ensures var r := Extract(keys, o, limit, table0, lines);
      var earlier := Records(keys, o, lines[..r.outcome.line - 1]);
      exists k :: 0 <= k <= |earlier| && |earlier| - k < limit && WholeBatches(k, limit) && r.table == table0 + earlier[..k]
  {
    var s := Run(keys, o, limit, table0, lines);
    HaltedKeepsCompletedFlushes(keys, o, limit, table0, lines);
    var ln := s.status.line;
    var before := Run(keys, o, limit, table0, lines[..ln - 1]);
    RunInvariant(keys, o, limit, table0, lines[..ln - 1]);
    var k := before.count;
    assert 0 <= k <= |Records(keys, o, lines[..ln - 1])| && |Records(keys, o, lines[..ln - 1])| - k < limit && WholeBatches(k, limit);
  }

  /** Lines after the one reported by an abort are never read. */
  lemma AbortIgnoresLaterLines(keys: seq<string>, o: Oracles, limit: Capacity, table0: seq<Row>, lines: seq<string>, more: seq<string>)
    requires Extract(keys, o, limit, table0, lines).outcome.Aborted?
    ensures Extract(keys, o, limit, table0, lines + more) == Extract(keys, o, limit, table0, lines)
  {
    HaltedIsFinal(keys, o, limit, table0, lines, more);
  }

  // ---------------------------------------------------------------------
  // Completed extractions

  /** An extraction loads everything exactly when no line is fatal; then
      the table is the initial table followed by the rows of the lines that
      decode to an object, in file order, and the final `insert_cnt` is the
      number of rows appended. This holds for every batch capacity. */
  lemma ExtractLoadsRecords(keys: seq<string>, o: Oracles, limit: Capacity, table0: seq<Row>, lines: seq<string>)
    ensures var r := Extract(keys, o, limit, table0, lines);
      r.outcome.Loaded? <==> Clean(keys, o, lines)
    ensures var r := Extract(keys, o, limit, table0, lines);
      r.outcome.Loaded? ==>
        && r.table == table0 + Records(keys, o, lines)
        && r.outcome.inserted == |Records(keys, o, lines)|
        && |r.table| == |table0| + r.outcome.inserted
  {
    var s := Run(keys, o, limit, table0, lines);
    RunInvariant(keys, o, limit, table0, lines);
    if Clean(keys, o, lines) {
      CleanRunsToEnd(keys, o, limit, table0, lines);
    }
    if s.status.Running? {
      FinalFlushCompletes(o.accepts, limit, table0, Records(keys, o, lines), s);
    }
  }

  /** A failed end-of-stream flush: every line was blank, malformed or an
      object, but the database rejected a row of the last, partial batch;
      the table keeps the initial rows plus the completed full batches, that
      is every reference row except fewer than `limit` at the end. */
  lemma FinalFlushFailedReport(keys: seq<string>, o: Oracles, limit: Capacity, table0: seq<Row>, lines: seq<string>)
    requires Extract(keys, o, limit, table0, lines).outcome.FinalFlushFailed?
    ensures NoneFatal(o, lines) && !AllAccepted(o.accepts, Records(keys, o, lines))
    ensures var rows := Records(keys, o, lines);
      exists k :: 0 <= k <= |rows| && |rows| - k < limit && WholeBatches(k, limit)
        && AllAccepted(o.accepts, rows[..k])
        && Extract(keys, o, limit, table0, lines).table == table0 + rows[..k]
  {
    var s := Run(keys, o, limit, table0, lines);
    var rows := Records(keys, o, lines);
    RunInvariant(keys, o, limit, table0, lines);
    FinalFlushCompletes(o.accepts, limit, table0, rows, s);
    var k := s.count;
    assert 0 <= k <= |rows| && |rows| - k < limit && WholeBatches(k, limit);
  }

  /** The end-of-stream flush succeeds exactly when every row is accepted,
      and then the table holds all the rows. */
  lemma FinalFlushCompletes(accepts: Row -> bool, limit: Capacity, table0: seq<Row>, rows: seq<Row>, s: State)
    requires Buffered(accepts, limit, table0, rows, s)
    ensures FlushBatch(s.table, s.batch, accepts).Flushed? <==> AllAccepted(accepts, rows)
    ensures FlushBatch(s.table, s.batch, accepts).Flushed? ==>
      FlushBatch(s.table, s.batch, accepts).table == table0 + rows && s.count + |s.batch| == |rows|
  {
    assert rows[..s.count] + s.batch == rows;
    AllAcceptedAppend(accepts, rows[..s.count], s.batch);
  }

  /** A full buffer of accepted rows flushes successfully. */
  lemma BufferFlushSucceeds(accepts: Row -> bool, limit: Capacity, table0: seq<Row>, rows: seq<Row>, row: Row, s: State)
    requires Buffered(accepts, limit, table0, rows, s)
    requires AllAccepted(accepts, rows + [row])
    ensures FlushBatch(s.table, s.batch + [row], accepts).Flushed?
  {
    var all := rows + [row];
    assert s.batch + [row] == all[s.count..];
    assert all == all[..s.count] + all[s.count..];
    AllAcceptedAppend(accepts, all[..s.count], all[s.count..]);
  }

  /** A run over clean lines is never halted. */
  lemma {:induction false} CleanRunsToEnd(keys: seq<string>, o: Oracles, limit: Capacity, table0: seq<Row>, lines: seq<string>)
    requires Clean(keys, o, lines)
    ensures Run(keys, o, limit, table0, lines).status.Running?
    decreases |lines|
  {
    if |lines| > 0 {
      var n := |lines| - 1;
      var prefix, line := lines[..n], lines[n];
      SplitLast(lines);
      var rows := Records(keys, o, prefix);
      CleanPrefix(keys, o, prefix, line);
      CleanRunsToEnd(keys, o, limit, table0, prefix);
      RunInvariant(keys, o, limit, table0, prefix);
      var p := Run(keys, o, limit, table0, prefix);
      assert Run(keys, o, limit, table0, lines) == Step(keys, o, limit, p, |lines|, line);
      CleanStepRuns(keys, o, limit, table0, rows, p, |lines|, line);
    }
  }

  /** Clean lines stay clean without their last line, and that line is not
      fatal and its row is accepted along with the earlier rows. */
  lemma CleanPrefix(keys: seq<string>, o: Oracles, prefix: seq<string>, line: string)
    requires Clean(keys, o, prefix + [line])
    ensures Clean(keys, o, prefix)
    ensures !Classify(o.parse, line).NotAnObject?
    ensures AllAccepted(o.accepts, Records(keys, o, prefix) + RowOf(keys, o, line))
  {
    RecordsSnoc(keys, o, prefix, line);
    NoneFatalAppend(o, prefix, [line]);
    AllAcceptedAppend(o.accepts, Records(keys, o, prefix), RowOf(keys, o, line));
    assert [line][0] == line;
  }

  /** A step on a line that is not fatal, whose row (if any) the database
      accepts together with all earlier rows, keeps the loop running. */
  lemma CleanStepRuns(keys: seq<string>, o: Oracles, limit: Capacity, table0: seq<Row>, rows: seq<Row>, s: State, ln: nat, line: string)
    requires s.status.Running? && Buffered(o.accepts, limit, table0, rows, s)
    requires !Classify(o.parse, line).NotAnObject?
    requires AllAccepted(o.accepts, rows + RowOf(keys, o, line))
    ensures Step(keys, o, limit, s, ln, line).status.Running?
  {
    match Classify(o.parse, line)
    case Blank =>
    case Malformed =>
    case Record(event) =>
      var row := Project(keys, event, o.dumps);
      assert RowOf(keys, o, line) == [row];
      BufferFlushSucceeds(o.accepts, limit, table0, rows, row, s);
  }

  // ---------------------------------------------------------------------
  // Blank and malformed lines

  /** Dropping the last element of `a + b`, for a non-empty `b`, drops it from `b`. */
  lemma DropLastOfAppend<T>(a: seq<T>, b: seq<T>)
    requires |b| > 0
    ensures (a + b)[..|a + b| - 1] == a + b[..|b| - 1]
    ensures (a + b)[|a + b| - 1] == b[|b| - 1]
  {
  }

  /** A non-empty sequence is its prefix followed by its last element. */
  lemma SplitLast<T>(s: seq<T>)
    requires |s| > 0
    ensures s[..|s| - 1] + [s[|s| - 1]] == s
  {
  }

  lemma AppendAssoc<T>(x: seq<T>, y: seq<T>, z: seq<T>)
    ensures (x + y) + z == x + (y + z)
  {
  }

  /** The reference rows of a concatenation are the concatenation of the
      reference rows. */
  lemma {:induction false} RecordsAppend(keys: seq<string>, o: Oracles, a: seq<string>, b: seq<string>)
    ensures Records(keys, o, a + b) == Records(keys, o, a) + Records(keys, o, b)
    decreases |b|
  {
    if |b| == 0 {
      assert a + b == a;
    } else {
      var n := |b| - 1;
      var c, last := b[..n], b[n];
      assert b == c + [last];
      assert a + b == (a + c) + [last];
      var ra, rc, rl := Records(keys, o, a), Records(keys, o, c), RowOf(keys, o, last);
      RecordsAppend(keys, o, a, c);
      RecordsSnoc(keys, o, a + c, last);
      RecordsSnoc(keys, o, c, last);
      AppendAssoc(ra, rc, rl);
    }
  }

  /** Inserting a blank or malformed line anywhere changes neither the
      reference rows nor whether the lines are clean; so a load that
      completes commits the same table and reports the same count wherever
      such lines sit. */
  lemma SkippedLineAnywhere(keys: seq<string>, o: Oracles, limit: Capacity, table0: seq<Row>, lines: seq<string>, i: nat, junk: string)
    requires i <= |lines|
    requires IsBlank(junk) || o.parse(junk).DecodeError?
    ensures var longer := lines[..i] + [junk] + lines[i..];
      && Records(keys, o, longer) == Records(keys, o, lines)
      && (Extract(keys, o, limit, table0, longer).outcome.Loaded? <==> Extract(keys, o, limit, table0, lines).outcome.Loaded?)
      && (Extract(keys, o, limit, table0, lines).outcome.Loaded? ==>
            Extract(keys, o, limit, table0, longer) == Extract(keys, o, limit, table0, lines))
  {
    var longer := lines[..i] + [junk] + lines[i..];
    SkippedLineKeepsReference(keys, o, lines, i, junk);
    ExtractLoadsRecords(keys, o, limit, table0, lines);
    ExtractLoadsRecords(keys, o, limit, table0, longer);
  }

  lemma SkippedLineKeepsReference(keys: seq<string>, o: Oracles, lines: seq<string>, i: nat, junk: string)
    requires i <= |lines|
    requires IsBlank(junk) || o.parse(junk).DecodeError?
    ensures var longer := lines[..i] + [junk] + lines[i..];
      && Records(keys, o, longer) == Records(keys, o, lines)
      && (Clean(keys, o, longer) <==> Clean(keys, o, lines))
  {
    var a, b := lines[..i], lines[i..];
    assert a + b == lines;
    SkippedLineKeepsRecords(keys, o, a, b, junk);
    SkippedLineNotFatal(o, a, b, junk);
  }

  lemma SkippedLineKeepsRecords(keys: seq<string>, o: Oracles, a: seq<string>, b: seq<string>, junk: string)
    requires IsBlank(junk) || o.parse(junk).DecodeError?
    ensures Records(keys, o, a + [junk] + b) == Records(keys, o, a + b)
  {
    var k := Classify(o.parse, junk);
    assert k.Blank? || k.Malformed?;
    var ra, rb := Records(keys, o, a), Records(keys, o, b);
    RecordsSnoc(keys, o, a, junk);
    assert Records(keys, o, a + [junk]) == ra;
    RecordsAppend(keys, o, a + [junk], b);
    RecordsAppend(keys, o, a, b);
  }

  lemma SkippedLineNotFatal(o: Oracles, a: seq<string>, b: seq<string>, junk: string)
    requires IsBlank(junk) || o.parse(junk).DecodeError?
    ensures NoneFatal(o, a + [junk] + b) <==> NoneFatal(o, a + b)
  {
    assert [junk][0] == junk;
    NoneFatalAppend(o, a + [junk], b);
    NoneFatalAppend(o, a, [junk]);
    NoneFatalAppend(o, a, b);
  }
}

=== FILE: json.dfy ===
/** JSON values as `json.loads` produces them, and the outcome of parsing
    one input line. The JSON grammar itself is not modelled: parsing is an
    oracle the extractor receives as a parameter. */
module Json {

  /** A decoded JSON value. A number is abstract: which Python `int` or
      `float` a numeric literal becomes is up to the `parse` oracle, and the
      re-serialised payload need not repeat the literal (`1.50` comes back as
      `1.5`). The `literal` field only distinguishes numbers. */
  datatype Json =
    | Null
    | Bool(b: bool)
    | Number(literal: string)
    | Str(s: string)
    | Array(items: seq<Json>)
    | Object(fields: map<string, Json>)

  /** A decoded JSON object: a Python `dict` keyed by string, without the
    * order of its keys. `json.loads` keeps the order the keys appear in, and
    * `json.dumps` writes them back in that order; a `map` does not. */
  type Event = map<string, Json>

  /** What `json.loads(line)` does: raise `JSONDecodeError`, or return a
      value, which need not be an object. */
  datatype ParseResult = DecodeError | Decoded(value: Json)

  /** Python's `event.get(key)`: the value stored under `key`, or `None`
      (stored by the database as SQL NULL, like a JSON `null`) when absent. */
  function Get(event: Event, key: string): (v: Json)
    ensures v != Null ==> key in event && event[key] == v
    ensures v == Null <==> key !in event || event[key] == Null
  {
    if key in event then event[key] else Null
  }
}

=== FILE: pipeline.dfy ===
/** `truncate_bronze` and `main` (etl/bronze/extract.py:268-291): connect,
    empty the four raw tables, then run the four extractions in a fixed
    order, stopping at the first one that raises. Everything outside the
    program (the connection attempts, the JSON library, the database's
    acceptance of rows, the input files) is one `Environment` value. */
module Pipeline {
  import opened Json
  import opened Schema
  import opened Extractor
  import opened Retry

  /** The committed contents of the four raw tables. */
  datatype Bronze = Bronze(auth: seq<Row>, listen: seq<Row>, statusChange: seq<Row>, pageView: seq<Row>) {

    function Table(t: EventType): seq<Row> {
      match t
      case Auth => auth
      case Listen => listen
      case StatusChange => statusChange
      case PageView => pageView
    }

    /** The same tables with `t` replaced by `rows`. */
    function With(t: EventType, rows: seq<Row>): (b: Bronze)
      ensures b.Table(t) == rows
      ensures forall u :: u != t ==> b.Table(u) == Table(u)
    {
      match t
      case Auth => this.(auth := rows)
      case Listen => this.(listen := rows)
      case StatusChange => this.(statusChange := rows)
      case PageView => this.(pageView := rows)
    }
  }

  /** `truncate_bronze`: one committed `TRUNCATE` of all four tables. */
  function TruncateBronze(w: Bronze): (r: Bronze)
    ensures forall t :: r.Table(t) == []
  {
    Bronze([], [], [], [])
  }

  /** What the program does not control. `files(t)` is the line sequence of
      the input file of event type `t`; `accepts(t)` says which rows the
      database accepts into table `t`. */
  datatype Environment = Environment(
    connect: nat -> bool,
    parse: string -> ParseResult,
    dumps: Event -> string,
    accepts: EventType -> Row -> bool,
    files: EventType -> seq<string>)

  function OraclesFor(env: Environment, t: EventType): Oracles {
    Oracles(env.parse, env.dumps, env.accepts(t))
  }

  /** The extraction of table `t` starting from the contents `table0`. */
  function ExtractTable(env: Environment, t: EventType, table0: seq<Row>): Report {
    Extract(Keys(t), OraclesFor(env, t), BATCH_LIMIT, table0, env.files(t))
  }

  /** The rows a complete load of table `t` appends. */
  function Expected(env: Environment, t: EventType): seq<Row> {
    Records(Keys(t), OraclesFor(env, t), env.files(t))
  }

  /** The extraction order of `main`. */
  const LOAD_ORDER: seq<EventType> := [Auth, Listen, StatusChange, PageView]

  datatype Progress = AllLoaded | StoppedAt(table: EventType, outcome: Outcome)

  datatype Load = Load(bronze: Bronze, progress: Progress)

  /** Runs the extraction `extract(t, contents)` of each table `t` of
      `order` one after another; an extraction that does not load
      everything raises, so later ones never run. */
  function LoadTables(extract: (EventType, seq<Row>) -> Report, w: Bronze, order: seq<EventType>): (l: Load)
    ensures l.progress.StoppedAt? ==> l.progress.table in order && !l.progress.outcome.Loaded?
    decreases |order|
  {
    if order == [] then Load(w, AllLoaded)
    else
      var t := order[0];
      var r := extract(t, w.Table(t));
      var w' := w.With(t, r.table);
      if r.outcome.Loaded? then LoadTables(extract, w', order[1..])
      else Load(w', StoppedAt(t, r.outcome))
  }

  datatype RunOutcome =
    | Completed
    | ConnectionFailed(attempts: nat)
    | ExtractionFailed(table: EventType, outcome: Outcome)

  /** The tables after the run, the backoff sleeps, and how the run ended. */
  datatype RunResult = RunResult(bronze: Bronze, sleeps: seq<nat>, outcome: RunOutcome)

  /** `main()`, run against a warehouse whose raw tables hold `w`. */
  function RunMain(env: Environment, w: Bronze): (r: RunResult)
    ensures r.sleeps == Acquire(env.connect).sleeps
    ensures r.outcome.ConnectionFailed? <==> forall k :: 1 <= k <= MAX_ATTEMPTS ==> !env.connect(k)
    ensures r.outcome.ConnectionFailed? ==> r.bronze == w && r.outcome.attempts == MAX_ATTEMPTS
    ensures r.outcome.ExtractionFailed? ==> !r.outcome.outcome.Loaded?
  {
    var acq := Acquire(env.connect);
    match acq.result
    case GaveUp(n) => RunResult(w, acq.sleeps, ConnectionFailed(n))
    case Connected(_) =>
      var load := LoadTables((t, t0) => ExtractTable(env, t, t0), TruncateBronze(w), LOAD_ORDER);
      match load.progress
      case AllLoaded => RunResult(load.bronze, acq.sleeps, Completed)
      case StoppedAt(t, o) => RunResult(load.bronze, acq.sleeps, ExtractionFailed(t, o))
  }

  // ---------------------------------------------------------------------
  // Properties of the load sequence, for any extraction

  ghost predicate Distinct(order: seq<EventType>) {
    forall i, j :: 0 <= i < j < |order| ==> order[i] != order[j]
  }

  /** Loading a sequence of distinct tables: all of them load exactly when
      each extraction, run on the table's prior contents, loads; then each
      table holds what its extraction committed. A table outside the
      sequence is never touched. */
  lemma {:induction false} LoadTablesAll(extract: (EventType, seq<Row>) -> Report, w: Bronze, order: seq<EventType>)
    requires Distinct(order)
    ensures var l := LoadTables(extract, w, order);
      l.progress.AllLoaded? <==>
        forall i :: 0 <= i < |order| ==> extract(order[i], w.Table(order[i])).outcome.Loaded?
    ensures var l := LoadTables(extract, w, order);
      l.progress.AllLoaded? ==>
        forall i :: 0 <= i < |order| ==> l.bronze.Table(order[i]) == extract(order[i], w.Table(order[i])).table
    ensures var l := LoadTables(extract, w, order);
      forall t :: t !in order ==> l.bronze.Table(t) == w.Table(t)
    decreases |order|
  {
    if order != [] {
      var t := order[0];
      var r := extract(t, w.Table(t));
      var w' := w.With(t, r.table);
      var rest := order[1..];
      assert Distinct(rest);
      assert t !in rest;
      LoadTablesAll(extract, w', rest);
      forall i | 0 < i < |order|
        ensures order[i] == rest[i - 1] && w'.Table(order[i]) == w.Table(order[i])
      {
        assert order[i] != t;
      }
    }
  }

  /** The table at position `i` of `order` is the one whose extraction
      stopped the load `l`: the tables before it were fully loaded, it holds
      what its failed extraction committed, and the tables after it keep
      their prior contents since their extractions never ran. */
  ghost predicate StoppedAtIndex(extract: (EventType, seq<Row>) -> Report, w: Bronze, order: seq<EventType>, l: Load, i: int) {
    && 0 <= i < |order|
    && l.progress.StoppedAt?
    && order[i] == l.progress.table
    && l.progress.outcome == extract(order[i], w.Table(order[i])).outcome
    && !l.progress.outcome.Loaded?
    && l.bronze.Table(order[i]) == extract(order[i], w.Table(order[i])).table
    && (forall j :: 0 <= j < i ==>
          && extract(order[j], w.Table(order[j])).outcome.Loaded?
          && l.bronze.Table(order[j]) == extract(order[j], w.Table(order[j])).table)
    && (forall j :: i < j < |order| ==> l.bronze.Table(order[j]) == w.Table(order[j]))
  }

  /** Loading stops at the first table whose extraction does not complete. */
  lemma {:induction false} LoadTablesStops(extract: (EventType, seq<Row>) -> Report, w: Bronze, order: seq<EventType>)
    requires Distinct(order)
    requires LoadTables(extract, w, order).progress.StoppedAt?
    ensures exists i :: StoppedAtIndex(extract, w, order, LoadTables(extract, w, order), i)
    decreases |order|
  {
    var t := order[0];
    var r := extract(t, w.Table(t));
    var w' := w.With(t, r.table);
    var l := LoadTables(extract, w, order);
    var rest := order[1..];
    assert t !in rest;
    if r.outcome.Loaded? {
      assert Distinct(rest);
      LoadTablesStops(extract, w', rest);
      var k :| StoppedAtIndex(extract, w', rest, l, k);
      forall j | 0 < j < |order|
        ensures order[j] == rest[j - 1] && w'.Table(order[j]) == w.Table(order[j])
      {
        assert order[j] != t;
      }
      LoadTablesAll(extract, w', rest);
      assert StoppedAtIndex(extract, w, order, l, k + 1);
    } else {
      forall j | 0 < j < |order|
        ensures l.bronze.Table(order[j]) == w.Table(order[j])
      {
        assert order[j] != t;
      }
      assert StoppedAtIndex(extract, w, order, l, 0);
    }
  }

  // ---------------------------------------------------------------------
  // Properties of `main`

  /** `main` loads every raw table, each once. */
  lemma LoadOrderCoversAll()
    ensures Distinct(LOAD_ORDER)
    ensures forall t :: t in LOAD_ORDER
  {
    forall t
      ensures t in LOAD_ORDER
    {
      match t
      case Auth => assert LOAD_ORDER[0] == t;
      case Listen => assert LOAD_ORDER[1] == t;
      case StatusChange => assert LOAD_ORDER[2] == t;
      case PageView => assert LOAD_ORDER[3] == t;
    }
  }

  /** On an empty table, the extraction of `t` loads exactly when its input
      is clean, and then commits exactly the expected rows. */
  lemma ExtractFromEmpty(env: Environment, t: EventType)
    ensures ExtractTable(env, t, []).outcome.Loaded? <==> Clean(Keys(t), OraclesFor(env, t), env.files(t))
    ensures ExtractTable(env, t, []).outcome.Loaded? ==> ExtractTable(env, t, []).table == Expected(env, t)
  {
    ExtractLoadsRecords(Keys(t), OraclesFor(env, t), BATCH_LIMIT, [], env.files(t));
  }

  /** A run that connects completes exactly when every input is clean, and
      then each raw table holds exactly its expected rows. */
  lemma MainLoadsEverything(env: Environment, w: Bronze)
    requires Acquire(env.connect).result.Connected?
    ensures RunMain(env, w).outcome.Completed? <==>
      forall t :: Clean(Keys(t), OraclesFor(env, t), env.files(t))
    ensures RunMain(env, w).outcome.Completed? ==> forall t :: RunMain(env, w).bronze.Table(t) == Expected(env, t)
  {
    var extract := (t, t0) => ExtractTable(env, t, t0);
    var e := TruncateBronze(w);
    var l := LoadTables(extract, e, LOAD_ORDER);
    LoadOrderCoversAll();
    LoadTablesAll(extract, e, LOAD_ORDER);
    assert RunMain(env, w).outcome.Completed? <==> l.progress.AllLoaded?;
    assert RunMain(env, w).bronze == l.bronze;
    forall t
      ensures (extract(t, e.Table(t)).outcome.Loaded? <==> Clean(Keys(t), OraclesFor(env, t), env.files(t)))
      ensures extract(t, e.Table(t)).outcome.Loaded? ==> extract(t, e.Table(t)).table == Expected(env, t)
    {
      ExtractFromEmpty(env, t);
    }
    if l.progress.AllLoaded? {
      forall t
        ensures Clean(Keys(t), OraclesFor(env, t), env.files(t))
        ensures l.bronze.Table(t) == Expected(env, t)
      {
        var i :| 0 <= i < |LOAD_ORDER| && LOAD_ORDER[i] == t;
      }
    }
  }

  /** When an extraction fails, the tables loaded before it are complete and
      the ones after it in `main`'s order are left empty by the reset. */
  lemma MainStopsAtFirstFailure(env: Environment, w: Bronze)
    requires RunMain(env, w).outcome.ExtractionFailed?
    ensures var r := RunMain(env, w);
      exists i :: 0 <= i < |LOAD_ORDER| && LOAD_ORDER[i] == r.outcome.table
        && r.outcome.outcome == ExtractTable(env, LOAD_ORDER[i], []).outcome
        && !r.outcome.outcome.Loaded?
        && r.bronze.Table(LOAD_ORDER[i]) == ExtractTable(env, LOAD_ORDER[i], []).table
        && (forall j :: 0 <= j < i ==> r.bronze.Table(LOAD_ORDER[j]) == Expected(env, LOAD_ORDER[j]))
        && (forall j :: i < j < |LOAD_ORDER| ==> r.bronze.Table(LOAD_ORDER[j]) == [])
  {
    var extract := (t, t0) => ExtractTable(env, t, t0);
    var e := TruncateBronze(w);
    var l := LoadTables(extract, e, LOAD_ORDER);
    LoadOrderCoversAll();
    LoadTablesStops(extract, e, LOAD_ORDER);
    var i :| StoppedAtIndex(extract, e, LOAD_ORDER, l, i);
    assert RunMain(env, w).bronze == l.bronze;
    forall j | 0 <= j < i
      ensures l.bronze.Table(LOAD_ORDER[j]) == Expected(env, LOAD_ORDER[j])
    {
      ExtractFromEmpty(env, LOAD_ORDER[j]);
    }
  }

  /** An unreachable warehouse leaves every table as it was. */
  lemma MainWithoutConnection(env: Environment, w: Bronze)
    requires forall k :: env.connect(k) == false
    ensures RunMain(env, w) == RunResult(w, [2, 4, 8, 16], ConnectionFailed(5))
  {
    UnreachableWarehouse(env.connect);
  }

  /** Full refresh: once connected, the result does not depend on what the
      raw tables held before, so running twice on the same inputs gives the
      same tables as running once. */
  lemma MainIsIdempotent(env: Environment, w1: Bronze, w2: Bronze)
    ensures Acquire(env.connect).result.Connected? ==> RunMain(env, w1) == RunMain(env, w2)
    ensures RunMain(env, RunMain(env, w1).bronze) == RunMain(env, w1)
  {
  }
}

=== FILE: retry.dfy ===
/** `get_pg_conn` (etl/bronze/extract.py:10-37): connect with bounded
    exponential backoff. The outcome of each connection attempt is an
    oracle `connect(k)` (true when the k-th attempt, counted from 1,
    succeeds); the blocking sleeps are recorded instead of performed. */
module Retry {

  /** The attempt whose failure is final. */
  const MAX_ATTEMPTS: nat := 5

  datatype Connection = Connected(attempt: nat) | GaveUp(attempts: nat)

  /** The sleeps performed, in seconds and in order, and the final result. */
  datatype Acquisition = Acquisition(sleeps: seq<nat>, result: Connection)

  function Pow2(n: nat): (r: nat)
    ensures r >= 1
  {
    if n == 0 then 1 else 2 * Pow2(n - 1)
  }

  /** `sleep_time = 2 * (2 ** (attempt - 1))` after the `attempt`-th failure. */
  function Backoff(attempt: nat): nat
    requires attempt >= 1
  {
    2 * Pow2(attempt - 1)
  }

  /** The loop of `get_pg_conn` once `failed` attempts have failed (the
      Python `attempt` counter): try attempt `failed + 1`; on failure either
      give up, when that was attempt 5, or sleep and go round again. */
  function Attempts(connect: nat -> bool, failed: nat): (r: Acquisition)
    requires failed < MAX_ATTEMPTS
    ensures r.result.Connected? ==>
      && failed < r.result.attempt <= MAX_ATTEMPTS
      && connect(r.result.attempt)
      && (forall j :: failed < j < r.result.attempt ==> !connect(j))
      && |r.sleeps| == r.result.attempt - failed - 1
    ensures r.result.GaveUp? ==>
      && r.result.attempts == MAX_ATTEMPTS
      && (forall j :: failed < j <= MAX_ATTEMPTS ==> !connect(j))
      && |r.sleeps| == MAX_ATTEMPTS - failed - 1
    ensures forall i :: 0 <= i < |r.sleeps| ==> r.sleeps[i] == Backoff(failed + 1 + i)
    decreases MAX_ATTEMPTS - failed
  {
    if connect(failed + 1) then Acquisition([], Connected(failed + 1))
    else if failed + 1 >= MAX_ATTEMPTS then Acquisition([], GaveUp(failed + 1))
    else
      var rest := Attempts(connect, failed + 1);
      Acquisition([Backoff(failed + 1)] + rest.sleeps, rest.result)
  }

  /** `get_pg_conn()`: connects at the first succeeding attempt among the
      first five, having slept after each earlier failure; gives up with
      attempt count 5 when all five fail. */
  function Acquire(connect: nat -> bool): (r: Acquisition)
    ensures r.result.Connected? <==> exists k :: 1 <= k <= MAX_ATTEMPTS && connect(k)
    ensures r.result.Connected? ==>
      && 1 <= r.result.attempt <= MAX_ATTEMPTS
      && connect(r.result.attempt)
      && (forall j :: 1 <= j < r.result.attempt ==> !connect(j))
      && r.sleeps == [2, 4, 8, 16][..r.result.attempt - 1]
    ensures r.result.GaveUp? ==>
      && r.result.attempts == MAX_ATTEMPTS
      && (forall j :: 1 <= j <= MAX_ATTEMPTS ==> !connect(j))
      && r.sleeps == [2, 4, 8, 16]
  {
    var r := Attempts(connect, 0);
    BackoffSchedule();
    r
  }

  /** The backoff after failures 1 to 4 is 2, 4, 8 and 16 seconds. */
  lemma BackoffSchedule()
    ensures Backoff(1) == 2 && Backoff(2) == 4 && Backoff(3) == 8 && Backoff(4) == 16
  {
  }

  /** No sixth attempt: only the outcomes of attempts `failed + 1` to 5 are
      ever consulted. */
  lemma {:induction false} AttemptsConsultOnlyFirstFive(c1: nat -> bool, c2: nat -> bool, failed: nat)
    requires failed < MAX_ATTEMPTS
    requires forall k :: failed < k <= MAX_ATTEMPTS ==> c1(k) == c2(k)
    ensures Attempts(c1, failed) == Attempts(c2, failed)
    decreases MAX_ATTEMPTS - failed
  {
    if !c1(failed + 1) && failed + 1 < MAX_ATTEMPTS {
      AttemptsConsultOnlyFirstFive(c1, c2, failed + 1);
    }
  }

  /** Two environments that agree on the first five attempts acquire alike,
      whatever a sixth attempt would have done. */
  lemma AcquireNeverTriesSixth(c1: nat -> bool, c2: nat -> bool)
    requires forall k :: 1 <= k <= MAX_ATTEMPTS ==> c1(k) == c2(k)
    ensures Acquire(c1) == Acquire(c2)
  {
    AttemptsConsultOnlyFirstFive(c1, c2, 0);
  }

  /** The warehouse unreachable throughout: five attempts, four sleeps of
      2, 4, 8 and 16 seconds, then the error carrying attempt count 5. */
  lemma UnreachableWarehouse(connect: nat -> bool)
    requires forall k :: connect(k) == false
    ensures Acquire(connect) == Acquisition([2, 4, 8, 16], GaveUp(5))
  {
  }
}

=== FILE: schema.dfy ===
/** The four raw (bronze) tables, the ordered JSON keys each one reads, and
    the projection of a decoded event onto a positional row
    (etl/bronze/extract.py:54-265). */
module Schema {
  import opened Json

  /** One raw table per event type. */
  datatype EventType = Auth | Listen | StatusChange | PageView

  /** A row handed to the batch insert: the looked-up key values in key
      order, then the re-serialised payload (the `%s::jsonb` column). */
  datatype Row = Row(columns: seq<Json>, payload: string)

  /** The JSON keys each extractor looks up, in tuple order. */
  function Keys(t: EventType): seq<string> {
    match t
    case Auth => ["ts", "userId", "sessionId", "success", "level", "city", "state"]
    case Listen => ["ts", "userId", "sessionId", "artist", "song", "level", "auth", "city", "state"]
    case StatusChange => ["ts", "userId", "sessionId", "auth", "level", "city", "state"]
    case PageView =>
      ["ts", "userId", "sessionId", "page", "method", "status", "auth", "level", "artist", "song", "city", "state"]
  }

  /** The column list of each table's INSERT statement. */
  function InsertColumns(t: EventType): seq<string> {
    match t
    case Auth => ["event_ts", "user_id", "session_id", "success", "level", "city", "state", "payload"]
    case Listen =>
      ["event_ts", "user_id", "session_id", "artist", "song", "level", "auth", "city", "state", "payload"]
    case StatusChange => ["event_ts", "user_id", "session_id", "auth", "level", "city", "state", "payload"]
    case PageView =>
      ["event_ts", "user_id", "session_id", "page", "method", "status", "auth", "level",
       "artist", "song", "city", "state", "payload"]
  }

  /** The number of `%s` placeholders in each INSERT statement's VALUES list. */
  function Placeholders(t: EventType): nat {
    match t
    case Auth => 8
    case Listen => 10
    case StatusChange => 8
    case PageView => 13
  }

  /** The column a JSON key lands in: the camel-case identifiers are renamed,
      every other key keeps its name. */
  function ColumnOf(key: string): string {
    if key == "ts" then "event_ts"
    else if key == "userId" then "user_id"
    else if key == "sessionId" then "session_id"
    else key
  }

  function MapColumns(keys: seq<string>): (cols: seq<string>)
    ensures |cols| == |keys|
    ensures forall i :: 0 <= i < |keys| ==> cols[i] == ColumnOf(keys[i])
  {
    if keys == [] then [] else [ColumnOf(keys[0])] + MapColumns(keys[1..])
  }

  /** The positional tuples line up with the INSERT statements: the i-th
      looked-up key fills the i-th named column, the payload fills the last
      one, and the tuple has exactly as many elements as VALUES has
      placeholders. Every table starts with the timestamp and the two
      identifiers and ends with the location. */
  lemma TupleMatchesInsert(t: EventType)
    ensures MapColumns(Keys(t)) + ["payload"] == InsertColumns(t)
    ensures |Keys(t)| + 1 == Placeholders(t)
    ensures Keys(t)[..3] == ["ts", "userId", "sessionId"]
    ensures Keys(t)[|Keys(t)| - 2..] == ["city", "state"]
  {
    KeysShape(t);
    NoIdentifierAfterThird(t);
    InsertShape(t);
    RenamesOnlyIdentifiers(Keys(t)[3..]);
  }

  /** No table looks up the same key twice. */
  lemma KeysDistinct(t: EventType)
    ensures forall i, j :: 0 <= i < j < |Keys(t)| ==> Keys(t)[i] != Keys(t)[j]
  {
  }

  lemma NoIdentifierAfterThird(t: EventType)
    ensures "ts" !in Keys(t)[3..] && "userId" !in Keys(t)[3..] && "sessionId" !in Keys(t)[3..]
  {
  }

  lemma KeysShape(t: EventType)
    ensures Keys(t) == ["ts", "userId", "sessionId"] + Keys(t)[3..]
    ensures |Keys(t)| + 1 == Placeholders(t)
    ensures Keys(t)[|Keys(t)| - 2..] == ["city", "state"]
  {
  }

  lemma InsertShape(t: EventType)
    ensures InsertColumns(t) == ["event_ts", "user_id", "session_id"] + Keys(t)[3..] + ["payload"]
  {
  }

  lemma RenamesOnlyIdentifiers(rest: seq<string>)
    requires "ts" !in rest && "userId" !in rest && "sessionId" !in rest
    ensures MapColumns(["ts", "userId", "sessionId"] + rest) == ["event_ts", "user_id", "session_id"] + rest
  {
    var keys := ["ts", "userId", "sessionId"] + rest;
    var c := MapColumns(keys);
    forall i | 0 <= i < |keys|
      ensures c[i] == (["event_ts", "user_id", "session_id"] + rest)[i]
    {
      if i >= 3 {
        assert keys[i] == rest[i - 3];
      }
    }
  }

  /** The tuple built by `batch.append((event.get(k1), ..., json.dumps(event)))`. */
  function Project(keys: seq<string>, event: Event, dumps: Event -> string): (r: Row)
    ensures |r.columns| == |keys|
    ensures forall i :: 0 <= i < |keys| ==> r.columns[i] == Get(event, keys[i])
    ensures forall i :: 0 <= i < |keys| ==> (r.columns[i] == Null <==> keys[i] !in event || event[keys[i]] == Null)
    ensures r.payload == dumps(event)
  {
    Row(seq(|keys|, i requires 0 <= i < |keys| => Get(event, keys[i])), dumps(event))
  }

  /** Two events give the same columns exactly when they agree on every
      looked-up key (absent and `null` counting as the same); keys outside
      the list reach the table only through the payload. */
  lemma ProjectSeesOnlyKeys(keys: seq<string>, e1: Event, e2: Event, dumps: Event -> string)
    ensures Project(keys, e1, dumps).columns == Project(keys, e2, dumps).columns
        <==> forall i :: 0 <= i < |keys| ==> Get(e1, keys[i]) == Get(e2, keys[i])
  {
    var c1, c2 := Project(keys, e1, dumps).columns, Project(keys, e2, dumps).columns;
    if c1 == c2 {
      forall i | 0 <= i < |keys|
        ensures Get(e1, keys[i]) == Get(e2, keys[i])
      {
        assert c1[i] == c2[i];
      }
    }
  }

  /** Adding a key the table does not read changes no column. */
  lemma ExtraKeyIgnored(keys: seq<string>, event: Event, key: string, v: Json, dumps: Event -> string)
    requires key !in keys
    ensures Project(keys, event[key := v], dumps).columns == Project(keys, event, dumps).columns
  {
    forall i | 0 <= i < |keys|
      ensures Get(event[key := v], keys[i]) == Get(event, keys[i])
    {
      assert keys[i] != key;
    }
    ProjectSeesOnlyKeys(keys, event[key := v], event, dumps);
  }
}

=== FILE: text.dfy ===
/** Whitespace handling of input lines: Python's `str.strip()` with no
    argument, and the "blank line" test `not line.strip()` the extractor
    applies before parsing (etl/bronze/extract.py:66). */
module Text {

  /** The characters Python's `str.isspace` (and so `str.strip`) treats as
      whitespace: the ASCII controls TAB..CR and FS..US, SPACE, NEL, NBSP and
      the Unicode space separators, line and paragraph separators. */
  predicate IsSpace(c: char) {
    var n := c as int;
    || (0x09 <= n <= 0x0D)
    || (0x1C <= n <= 0x20)
    || n == 0x85 || n == 0xA0 || n == 0x1680
    || (0x2000 <= n <= 0x200A)
    || n == 0x2028 || n == 0x2029 || n == 0x202F || n == 0x205F || n == 0x3000
  }

  /** A line with no character other than whitespace (the empty line too). */
  predicate IsBlank(s: string) {
    forall i :: 0 <= i < |s| ==> IsSpace(s[i])
  }

  /** Removes the longest whitespace prefix. */
  function TrimStart(s: string): (r: string)
    ensures |r| <= |s| && r == s[|s| - |r|..]
    ensures forall i :: 0 <= i < |s| - |r| ==> IsSpace(s[i])
    ensures |r| > 0 ==> !IsSpace(r[0])
  {
    if |s| > 0 && IsSpace(s[0]) then TrimStart(s[1..]) else s
  }

  /** Removes the longest whitespace suffix. */
  function TrimEnd(s: string): (r: string)
    ensures |r| <= |s| && r == s[..|r|]
    ensures forall i :: |r| <= i < |s| ==> IsSpace(s[i])
    ensures |r| > 0 ==> !IsSpace(r[|r| - 1])
  {
    if |s| > 0 && IsSpace(s[|s| - 1]) then TrimEnd(s[..|s| - 1]) else s
  }

  /** Python's `s.strip()`. */
  function Strip(s: string): (r: string)
    ensures |r| > 0 ==> !IsSpace(r[0]) && !IsSpace(r[|r| - 1])
  {
    TrimEnd(TrimStart(s))
  }

  /** `not line.strip()` holds exactly for the blank lines: stripping leaves
      nothing iff every character is whitespace. */
  lemma {:induction false} StripEmptyIffBlank(s: string)
    ensures Strip(s) == [] <==> IsBlank(s)
  {
    var t := TrimStart(s);
    if Strip(s) == [] {
      // A non-empty TrimStart result would start with a non-space that
      // TrimEnd cannot remove, so the whole line is the stripped prefix.
      assert t == [];
    } else {
      var r := Strip(s);
      var k := |s| - |t|;
      assert r[0] == t[0] == s[k];
    }
  }
}
